=== FILE: README.md ===
# Order-payments dashboard pipeline, modelled in Dafny

The dashboard (`dashboard/dashboard.py`) loads two CSV files from its own directory: the
order items and the order payments. It checks that both have `order_id` and inner-joins
them on it. It then converts `shipping_limit_date` to timestamps, coercing unreadable values
to NaT and dropping those rows. Next it keeps the rows whose timestamp lies in the window
picked in the sidebar. When nothing is left it stops with a warning. Otherwise it computes
two summaries, each only when its columns exist:

- the total `payment_value` per `payment_type`;
- the mean `price` per `payment_installments`.

This project models that pipeline as pure functions over abstract data frames and proves
what each stage does.

- `values.dfy`: cell values (`Null | Num | Str | Time`) and the total order in which
  `groupby` lists its keys.
- `tables.dfy`: a frame is a column set plus a sequence of rows (`map<string, Value>`).
  The loader reads a project directory modelled as a map from file name to frame.
- `join.dfy`: the inner join on `order_id`, with pandas' `_x`/`_y` suffixes for shared
  non-key columns.
- `dates.dfy`: coercing date conversion, `dropna`, and the inclusive range mask.
- `aggregate.dfy`: sorted group keys, per-group sum and mean, and reference definitions
  (`GroupSum`, `GroupCount`) that the summaries are proved against.
- `pipeline.dfy`: the script as one function `Run` returning a `Status`. Every
  `st.error` + `st.stop()` is its own variant (`MissingFile(title)`, `MissingKey`,
  `MissingDateColumn`). The `st.warning` + `st.stop()` is `EmptyRange`. A completed run
  is `Ok(payments, installments)`, where each summary is `None` when its columns are
  absent.
- `window.dfy`: the default sidebar window, and a correction of it (see Findings).

On these points the model follows the script:

- Join keys are compared by plain value equality. pandas matches a missing key with
  another missing key, unlike an SQL inner join, and the model does the same.
- The window is not checked for `start <= end`. An inverted window just keeps nothing
  and ends in `EmptyRange` (`Pipeline.InvertedWindowWarns`).
- A missing column stops the script with a fixed message that does not list the
  missing columns. A CSV file that exists but does not parse is not caught by the script.
- The script does not cache loaded files.

Timestamps are integers (seconds since the epoch). Amounts are exact reals. The date
parser of `pd.to_datetime` is a parameter `parse: Value -> Option<int>`, fixed for one run.

## Model

| member | source | states |
|---|---|---|
| `Loader.LoadCsv` | dashboard/dashboard.py:16-21 | a frame is returned iff the file exists, and it is that file's frame; otherwise the failure carries the file's label |
| `Pipeline.HaltingOrder` | dashboard/dashboard.py:16-41 | the stops come in script order: missing items file, then missing payments file, then missing `order_id`, then missing date column; each happens exactly under its condition, and a missing file's status names that file's label |
| `Pipeline.KeyCheckPrecedesJoin` | dashboard/dashboard.py:28-33 | when either frame lacks `order_id`, the run ends in `MissingKey` whatever the rows, parser or window, so no join result influences it |
| `Pipeline.Prepared` | dashboard/dashboard.py:16-41 | every stop before the filter is an error; on success both files exist, the join has the date column, and the frame is exactly the date-normalised inner join of the two files: rectangular, with a parsed timestamp in every row |
| `Join.JoinMembership` | dashboard/dashboard.py:33 | a row is in the join iff it is the merge of some left row and some right row with equal `order_id` |
| `Join.MatchMembership` | dashboard/dashboard.py:33 | the rows one left row contributes are exactly its merges with the matching right rows |
| `Join.JoinRows` | dashboard/dashboard.py:33 | the join has exactly `Fanout` rows: the sum over left rows of their number of matching right rows |
| `Join.MatchRows` | dashboard/dashboard.py:33 | one left row contributes exactly as many rows as it has matches in the right table |
| `Join.FanoutBound` | dashboard/dashboard.py:33 | the join never has more than \|items\| * \|payments\| rows |
| `Join.UniqueRightKeysBound` | dashboard/dashboard.py:33 | with `order_id` unique among payments, the join has at most one row per item |
| `Join.FanoutPeelRight` | dashboard/dashboard.py:33 | counting the join by payments gives the same size: the first payment contributes one row per item it matches |
| `Join.UniqueLeftKeysBound` | dashboard/dashboard.py:33 | with `order_id` unique among items, the join has at most one row per payment |
| `Join.UniqueKeysBound` | dashboard/dashboard.py:33 | with `order_id` unique in both tables, the join has at most min(\|items\|, \|payments\|) rows |
| `Join.JoinLeftConcat` | dashboard/dashboard.py:33 | the join distributes over splitting the left table, so output follows left-table order (pandas 2.2 and later; earlier versions group inner-join rows by key, and no summary depends on the order) |
| `Join.MatchRightConcat` | dashboard/dashboard.py:33 | one left row's matches distribute over splitting the right table, so they follow right-table order |
| `Join.JoinSingleton` | dashboard/dashboard.py:33 | one left row against one right row yields their merge iff the keys are equal, else nothing |
| `Join.JoinTwoToOne` | dashboard/dashboard.py:33 | two items of one order against its single payment give two joined rows, in item order |
| `Join.InnerJoin` | dashboard/dashboard.py:33 | the joined frame has the suffixed column set of both inputs, is rectangular, and has `Fanout` rows, at most the product of the input sizes; its rows are exactly the merges of item/payment pairs with equal `order_id`, in the order `JoinRows` fixes (items first, then payments) |
| `Join.Merge` | dashboard/dashboard.py:33 | a joined record has exactly the joined column set |
| `Join.MergeCell` | dashboard/dashboard.py:33 | the key and left-only columns come from the item row, right-only columns from the payment row, and shared columns from their own side as `<name>_x` / `<name>_y` |
| `Join.JoinRowsColumns` | dashboard/dashboard.py:33 | every joined row has exactly the joined columns |
| `Dates.CoerceCell` | dashboard/dashboard.py:37 | a converted cell is a timestamp or NaT; it is a timestamp iff the value already was one or is non-missing and parses; existing timestamps are kept, and a parsed value becomes exactly the instant the parser read |
| `Dates.CoerceDates` | dashboard/dashboard.py:37 | conversion keeps every row and every other cell, and only the date cell changes: an existing timestamp stays, a parsable value becomes the instant the parser read, anything else becomes NaT |
| `Dates.DropMissing` | dashboard/dashboard.py:38 | `dropna` keeps, in order and with multiplicity, exactly the rows whose cell is present; kept plus dropped equals the input count |
| `Dates.NormalizeDates` | dashboard/dashboard.py:36-38 | after normalisation every row has a timestamp, the columns are unchanged, and the row count is the input count minus the rows whose date failed to parse; the survivors are exactly the converted rows with a timestamp, in order and with multiplicity |
| `Dates.NormalizedWellFormed` | dashboard/dashboard.py:36-38 | normalisation keeps the frame rectangular |
| `Dates.NormalizedRowOrigin` | dashboard/dashboard.py:36-38 | each surviving row is an input row whose date parsed, with only its date cell replaced |
| `Dates.FilterRange` | dashboard/dashboard.py:50-51 | the mask keeps, as an order-preserving subsequence and with multiplicity, exactly the rows with `start <= ts <= end`; if every row is inside, the whole table is kept |
| `Dates.InvertedWindowIsEmpty` | dashboard/dashboard.py:50-51 | a window whose start is after its end keeps no row |
| `Dates.MinTime` | dashboard/dashboard.py:45 | the earliest timestamp is at most every row's timestamp and is one of them |
| `Dates.MaxTime` | dashboard/dashboard.py:45 | the latest timestamp is at least every row's timestamp and is one of them |
| `Dates.FullSpanKeepsAll` | dashboard/dashboard.py:45-51 | filtering with the data's own minimum and maximum instants keeps the whole table |
| `Pipeline.Run` | dashboard/dashboard.py:16-74 | the run ends in `EmptyRange` iff the data was prepared and the filtered table is empty; a successful run has a non-empty filtered table and carries exactly the gated summaries of the filtered rows |
| `Pipeline.RunPaymentTotal` | dashboard/dashboard.py:50-61 | the payment summary a run shows adds up to the total `payment_value` of the filtered rows that have a payment type |
| `Pipeline.EmptyRangeIsWarningOnly` | dashboard/dashboard.py:54-56 | a run is an error iff a stage before the filter stopped it, and it is `Ok` iff the filtered table is non-empty; so an empty filter is never an error and never a summary |
| `Pipeline.InvertedWindowWarns` | dashboard/dashboard.py:50-56 | a window with start after end is not rejected; it ends in the empty-range warning |
| `Pipeline.FullSpanSummarisesAll` | dashboard/dashboard.py:45-61 | with the data's own instant span as window, the summaries are computed over every normalised row |
| `Pipeline.Summaries` | dashboard/dashboard.py:58-74 | each summary is produced iff both of its columns are present, and is then the grouped aggregate of the filtered rows |
| `Pipeline.SummariesIndependent` | dashboard/dashboard.py:58-74 | each summary depends only on its own two columns' presence and values, so the two aggregates are independent |
| `Pipeline.FanoutCountsPaymentPerItem` | dashboard/dashboard.py:33-61 | one payment of value v joined to two items of its order is summed once per joined row, giving `[(type, v + v)]` |
| `Pipeline.TwoRowsOneGroup` | dashboard/dashboard.py:61 | two rows with the same payment type and value v give a one-entry summary with total v + v |
| `Values.LessIsStrictTotalOrder` | dashboard/dashboard.py:61 | the key order is irreflexive, transitive and total, so "ascending keys" is well defined |
| `Aggregate.InsertKey` | dashboard/dashboard.py:61 | adding a key to an ascending distinct key list keeps it ascending and adds exactly that key |
| `Aggregate.GroupKeys` | dashboard/dashboard.py:61 | the group keys are strictly ascending and are exactly the distinct non-missing values of the key column |
| `Aggregate.SumBy` | dashboard/dashboard.py:61 | one entry per distinct non-missing key, keys strictly ascending, each value the reference sum of the value column over that key's rows |
| `Aggregate.SumEntries` | dashboard/dashboard.py:61 | entries follow the given keys and each holds that key's reference sum |
| `Aggregate.PaymentSummary` | dashboard/dashboard.py:61 | `groupby("payment_type")['payment_value'].sum()`: one entry per distinct non-missing payment type, ascending, each the group's payment total; the entries add up to the total over typed rows |
| `Aggregate.InstallmentSummary` | dashboard/dashboard.py:70 | `groupby("payment_installments")['price'].mean()`: one entry per distinct non-missing installment count, ascending, each the group's mean price |
| `Aggregate.SumByTotal` | dashboard/dashboard.py:61 | the group sums add up to the total of the value column over all rows that have a key |
| `Aggregate.GroupMean` | dashboard/dashboard.py:70 | a group mean is missing iff the group has no numeric value; otherwise mean times count equals the group sum |
| `Aggregate.MeanBy` | dashboard/dashboard.py:70 | one entry per distinct non-missing key, keys strictly ascending, each value that key's mean |
| `Aggregate.MeanEntries` | dashboard/dashboard.py:70 | entries follow the given keys and each holds that key's mean |
| `Aggregate.MeanWithinBounds` | dashboard/dashboard.py:70 | a group mean lies between any lower and upper bound of the group's prices |
| `Aggregate.GroupSumAtLeast` | dashboard/dashboard.py:70 | a group sum is at least count times any lower bound of its values |
| `Aggregate.GroupSumAtMost` | dashboard/dashboard.py:70 | a group sum is at most count times any upper bound of its values |
| `Aggregate.SummariesReadOnlyTheirColumns` | dashboard/dashboard.py:59-74 | tables that agree row by row on the key and value columns have identical sum and mean summaries |
| `Window.Midnight` | dashboard/dashboard.py:47-51 | the midnight of an instant is a day boundary at most a day before it |
| `Window.DefaultWindow` | dashboard/dashboard.py:45-51 | as written, the default bounds are exactly the midnights of the first and last days (day boundaries within a day before the earliest and latest instants), so the end bound falls before the latest instant's day ends |
| `Window.DefaultWindowDropsLastDay` | dashboard/dashboard.py:45-51 | as written, every row later than midnight of the last day is outside the default window |
| `Window.DefaultWindowCanBeEmpty` | dashboard/dashboard.py:45-56 | as written, a one-row table due at 09:45:35 keeps nothing under its own default window |
| `Window.DayWindow` | dashboard/dashboard.py:47-51 | corrected: the window starts exactly at the start day's midnight and ends exactly at the last second of the end day |
| `Window.DayWindowIsByDay` | dashboard/dashboard.py:47-51 | corrected: an instant is inside iff its calendar day lies between the two chosen days |
| `Window.DefaultDayWindowKeepsAll` | dashboard/dashboard.py:45-51 | corrected: the default first-day-to-last-day selection keeps every normalised row |

## Left out

- Streamlit presentation: sidebar, headers, `st.dataframe`, banners, caption (lines 44, 60, 62, 64, 69, 71, 73, 96). The non-halting warnings at lines 64 and 73 appear only as a `None` summary.
- Charts and theme (lines 4-8, 76-94): presentation only.
- Path construction (lines 11-13) and CSV parsing by `pd.read_csv` (line 18). A file is found or not. An existing but malformed file makes pandas raise, which the script does not catch, so it has no status here.
- The format rules and format inference of `pd.to_datetime`: folded into the abstract parser of one run.
- The widget itself (line 47): its return value is the window input of `Run`. A selection of only one date, which breaks the tuple unpacking, is not modelled.
- IEEE floating point in `sum()`/`mean()`: amounts are exact reals. A missing or non-numeric amount is skipped by both aggregates. pandas would skip a NaN, but would raise on or concatenate a string.
- pandas type-mixing rules: integer and float keys are both `Num`. Keys of mixed kinds are sorted by a fixed kind order (numbers before strings, as pandas' mixed-type sort does). Nothing else about pandas' ordering of mixed kinds is modelled.
- An empty normalised table: no `order_id` matched, or no date parsed. Line 45 then takes `min()`/`max()` of an empty column, which gives NaT, and line 47 passes NaT to the date widget. The model gives the widget no part in this: the run ends in `EmptyRange` for every window. What the widget does with NaT bounds is not modelled.
- Sub-second precision: timestamps are whole seconds, while pandas keeps nanoseconds. For example, `Window.DayWindow` ends at midnight + 86399 and so would leave out 23:59:59.5 of the end day.
- Join keys of different kinds: when one file's `order_id` is numeric and the other's is text, pandas' `merge` at line 33 raises, and the script does not catch it. The model compares cell values instead, finds no match, and goes on to `MissingDateColumn` or `EmptyRange`.
- Join.Merge: when a suffixed name such as `price_x` is already a column, pandas refuses the merge. The model does not reject it; the unsuffixed column wins.

## Findings

| source | as written | input that shows it | evidently intended | confidence | as-written member | corrected member |
|---|---|---|---|---|---|---|
| dashboard/dashboard.py:45-51 | the default window is the midnight of the first day to the midnight of the last day, compared with `<=` against full timestamps | one row with `shipping_limit_date` 1970-01-02 09:45:35: the default window is [1970-01-02 00:00, 1970-01-02 00:00], nothing is kept and the script stops with "no data in the chosen range" | the last chosen day is included in full | medium (not executed) | `Window.DefaultWindowCanBeEmpty` | `Window.DefaultDayWindowKeepsAll` |

=== FILE: aggregate.dfy ===
/** The two grouped aggregates of dashboard/dashboard.py:
    `groupby(payment_type)[payment_value].sum()` and
    `groupby(payment_installments)[price].mean()`. Group keys are listed in
    ascending order (pandas' default `sort=True`), rows whose group key is missing
    belong to no group (pandas' default `dropna=True`), and missing or non-numeric
    amounts are skipped by both the sum and the mean. */
module Aggregate {
  import opened Wrappers
  import opened Values
  import opened Tables

  predicate StrictlySorted(ks: seq<Value>)
  {
    forall i, j :: 0 <= i < j < |ks| ==> Less(ks[i], ks[j])
  }

  /** Adds `k` to an ascending list of distinct keys. */
  function InsertKey(ks: seq<Value>, k: Value): (r: seq<Value>)
    requires StrictlySorted(ks)
    ensures StrictlySorted(r)
    ensures forall v :: v in r <==> v in ks || v == k
  {
    if ks == [] then [k]
    else if k == ks[0] then ks
    else if Less(k, ks[0]) then
      assert forall j :: 0 <= j < |ks| ==> Less(k, ks[j]) by {
        forall j | 0 <= j < |ks| ensures Less(k, ks[j]) {
          LessIsStrictTotalOrder(k, ks[0], ks[j]);
        }
      }
      [k] + ks
    else
      var rest := InsertKey(ks[1..], k);
      LessIsStrictTotalOrder(k, ks[0], k);
      assert forall v :: v in rest ==> Less(ks[0], v);
      assert ks == [ks[0]] + ks[1..];
      [ks[0]] + rest
  }

  /** The distinct non-missing values of column `kc`, in ascending order. */
  function GroupKeys(rows: seq<Row>, kc: string): (ks: seq<Value>)
    ensures StrictlySorted(ks)
    ensures forall v :: v in ks <==> !v.Null? && exists x :: x in rows && Cell(x, kc) == v
  {
    if rows == [] then []
    else
      var rest := GroupKeys(rows[1..], kc);
      assert rows == [rows[0]] + rows[1..];
      var k := Cell(rows[0], kc);
      if k.Null? then rest else InsertKey(rest, k)
  }

  /** The amount a cell contributes to a sum: its number, or nothing when it is
      missing or not numeric. */
  function Amount(v: Value): real
  {
    if v.Num? then v.x else 0.0
  }

  /** Reference grouping: the sum of column `vc` over the rows whose `kc` is `k`. */
  function GroupSum(rows: seq<Row>, kc: string, vc: string, k: Value): real
  {
    if rows == [] then 0.0
    else (if Cell(rows[0], kc) == k then Amount(Cell(rows[0], vc)) else 0.0) + GroupSum(rows[1..], kc, vc, k)
  }

  /** Reference grouping: how many rows with `kc` equal to `k` have a number in `vc`. */
  function GroupCount(rows: seq<Row>, kc: string, vc: string, k: Value): nat
  {
    if rows == [] then 0
    else (if Cell(rows[0], kc) == k && Cell(rows[0], vc).Num? then 1 else 0) + GroupCount(rows[1..], kc, vc, k)
  }

  /** The mean of column `vc` over group `k`; `None` (NaN in pandas) when the group
      has no numeric value. */
  function GroupMean(rows: seq<Row>, kc: string, vc: string, k: Value): (m: Option<real>)
    ensures m.None? <==> GroupCount(rows, kc, vc, k) == 0
    ensures m.Some? ==> m.value * (GroupCount(rows, kc, vc, k) as real) == GroupSum(rows, kc, vc, k)
  {
    var n := GroupCount(rows, kc, vc, k);
    if n == 0 then None else Some(GroupSum(rows, kc, vc, k) / (n as real))
  }

  function KeysOf<T>(entries: seq<(Value, T)>): (ks: seq<Value>)
    ensures |ks| == |entries|
    ensures forall i :: 0 <= i < |ks| ==> ks[i] == entries[i].0
  {
    if entries == [] then [] else [entries[0].0] + KeysOf(entries[1..])
  }

  function SumEntries(rows: seq<Row>, kc: string, vc: string, ks: seq<Value>): (r: seq<(Value, real)>)
    ensures KeysOf(r) == ks
    ensures forall i :: 0 <= i < |r| ==> r[i].1 == GroupSum(rows, kc, vc, ks[i])
  {
    if ks == [] then [] else [(ks[0], GroupSum(rows, kc, vc, ks[0]))] + SumEntries(rows, kc, vc, ks[1..])
  }

  function MeanEntries(rows: seq<Row>, kc: string, vc: string, ks: seq<Value>): (r: seq<(Value, Option<real>)>)
    ensures KeysOf(r) == ks
    ensures forall i :: 0 <= i < |r| ==> r[i].1 == GroupMean(rows, kc, vc, ks[i])
  {
    if ks == [] then [] else [(ks[0], GroupMean(rows, kc, vc, ks[0]))] + MeanEntries(rows, kc, vc, ks[1..])
  }

  /** `groupby(kc)[vc].sum()`: one entry per distinct non-missing key, keys ascending,
      each value the sum of `vc` over that key's rows. */
  function SumBy(rows: seq<Row>, kc: string, vc: string): (r: seq<(Value, real)>)
    ensures StrictlySorted(KeysOf(r))
    ensures forall v :: v in KeysOf(r) <==> !v.Null? && exists x :: x in rows && Cell(x, kc) == v
    ensures forall i :: 0 <= i < |r| ==> r[i].1 == GroupSum(rows, kc, vc, r[i].0)
  {
    SumEntries(rows, kc, vc, GroupKeys(rows, kc))
  }

  /** `groupby(kc)[vc].mean()`: one entry per distinct non-missing key, keys ascending,
      each value the mean of `vc` over that key's rows. */
  function MeanBy(rows: seq<Row>, kc: string, vc: string): (r: seq<(Value, Option<real>)>)
    ensures StrictlySorted(KeysOf(r))
    ensures forall v :: v in KeysOf(r) <==> !v.Null? && exists x :: x in rows && Cell(x, kc) == v
    ensures forall i :: 0 <= i < |r| ==> r[i].1 == GroupMean(rows, kc, vc, r[i].0)
  {
    MeanEntries(rows, kc, vc, GroupKeys(rows, kc))
  }

  /** The payment summary of lines 59-61. */
  function PaymentSummary(rows: seq<Row>): (r: seq<(Value, real)>)
    ensures StrictlySorted(KeysOf(r))
    ensures forall v :: v in KeysOf(r) <==> !v.Null? && exists x :: x in rows && Cell(x, PaymentType) == v
    ensures forall i :: 0 <= i < |r| ==> r[i].1 == GroupSum(rows, PaymentType, PaymentValue, r[i].0)
    ensures TotalOf(r) == KeyedTotal(rows, PaymentType, PaymentValue)
  {
    SumByTotal(rows, PaymentType, PaymentValue);
    SumBy(rows, PaymentType, PaymentValue)
  }

  /** The installment summary of lines 68-70. */
  function InstallmentSummary(rows: seq<Row>): (r: seq<(Value, Option<real>)>)
    ensures StrictlySorted(KeysOf(r))
    ensures forall v :: v in KeysOf(r) <==> !v.Null? && exists x :: x in rows && Cell(x, PaymentInstallments) == v
    ensures forall i :: 0 <= i < |r| ==> r[i].1 == GroupMean(rows, PaymentInstallments, Price, r[i].0)
  {
    MeanBy(rows, PaymentInstallments, Price)
  }

  /** Sum of the values of a summary. */
  function TotalOf(entries: seq<(Value, real)>): real
  {
    if entries == [] then 0.0 else entries[0].1 + TotalOf(entries[1..])
  }

  /** Sum of `vc` over every row that belongs to some group (its `kc` is present). */
  function KeyedTotal(rows: seq<Row>, kc: string, vc: string): real
  {
    if rows == [] then 0.0
    else (if Cell(rows[0], kc).Null? then 0.0 else Amount(Cell(rows[0], vc))) + KeyedTotal(rows[1..], kc, vc)
  }

  /** Removing the first row from every group takes its amount out of exactly the
      group it belongs to, when the keys are distinct. */
  lemma {:induction false} TotalStep(rows: seq<Row>, kc: string, vc: string, ks: seq<Value>)
    requires rows != []
    requires StrictlySorted(ks)
    ensures TotalOf(SumEntries(rows, kc, vc, ks)) ==
      TotalOf(SumEntries(rows[1..], kc, vc, ks)) + (if Cell(rows[0], kc) in ks then Amount(Cell(rows[0], vc)) else 0.0)
  {
    if ks != [] {
      TotalStep(rows, kc, vc, ks[1..]);
      if Cell(rows[0], kc) == ks[0] {
        LessIsStrictTotalOrder(ks[0], ks[0], ks[0]);
        assert ks[0] !in ks[1..];
      }
      assert ks == [ks[0]] + ks[1..];
    }
  }

  lemma {:induction false} TotalOverKeys(rows: seq<Row>, kc: string, vc: string, ks: seq<Value>)
    requires StrictlySorted(ks)
    requires Null !in ks
    requires forall x :: x in rows && !Cell(x, kc).Null? ==> Cell(x, kc) in ks
    ensures TotalOf(SumEntries(rows, kc, vc, ks)) == KeyedTotal(rows, kc, vc)
  {
    if rows == [] {
      EmptyGroupsTotal(kc, vc, ks);
    } else {
      TotalStep(rows, kc, vc, ks);
      assert rows == [rows[0]] + rows[1..];
      TotalOverKeys(rows[1..], kc, vc, ks);
    }
  }

  lemma {:induction false} EmptyGroupsTotal(kc: string, vc: string, ks: seq<Value>)
    ensures TotalOf(SumEntries([], kc, vc, ks)) == 0.0
  {
    if ks != [] { EmptyGroupsTotal(kc, vc, ks[1..]); }
  }

  /** The group sums of a summary add up to the sum over all rows that have a key;
      when no key is missing, that is the total over the whole table. */
  lemma SumByTotal(rows: seq<Row>, kc: string, vc: string)
    ensures TotalOf(SumBy(rows, kc, vc)) == KeyedTotal(rows, kc, vc)
  {
    var ks := GroupKeys(rows, kc);
    TotalOverKeys(rows, kc, vc, ks);
  }

  /** `a` added up `n` times, i.e. `a * n`, written so that induction stays linear. */
  function Times(a: real, n: nat): real
  {
    if n == 0 then 0.0 else a + Times(a, n - 1)
  }

  lemma {:induction false} TimesIsProduct(a: real, n: nat)
    ensures Times(a, n) == a * (n as real)
  {
    if n > 0 {
      TimesIsProduct(a, n - 1);
      assert a * (n as real) == a * ((n - 1) as real) + a;
    }
  }

  lemma {:induction false} GroupSumAtLeast(rows: seq<Row>, kc: string, vc: string, k: Value, lo: real)
    requires forall x :: x in rows && Cell(x, kc) == k && Cell(x, vc).Num? ==> lo <= Cell(x, vc).x
    ensures Times(lo, GroupCount(rows, kc, vc, k)) <= GroupSum(rows, kc, vc, k)
  {
    if rows != [] {
      assert rows[0] in rows;
      assert forall x :: x in rows[1..] ==> x in rows;
      GroupSumAtLeast(rows[1..], kc, vc, k, lo);
    }
  }

  lemma {:induction false} GroupSumAtMost(rows: seq<Row>, kc: string, vc: string, k: Value, hi: real)
    requires forall x :: x in rows && Cell(x, kc) == k && Cell(x, vc).Num? ==> Cell(x, vc).x <= hi
    ensures GroupSum(rows, kc, vc, k) <= Times(hi, GroupCount(rows, kc, vc, k))
  {
    if rows != [] {
      assert rows[0] in rows;
      assert forall x :: x in rows[1..] ==> x in rows;
      GroupSumAtMost(rows[1..], kc, vc, k, hi);
    }
  }

  lemma ScaleDown(m: real, n: real, b: real)
    requires n > 0.0
    ensures m * n >= b * n ==> m >= b
    ensures m * n <= b * n ==> m <= b
  {
    if m < b { assert (b - m) * n > 0.0; }
    if m > b { assert (m - b) * n > 0.0; }
  }

  /** A group mean lies between the smallest and the largest price of its group. */
  lemma MeanWithinBounds(rows: seq<Row>, kc: string, vc: string, k: Value, lo: real, hi: real)
    requires forall x :: x in rows && Cell(x, kc) == k && Cell(x, vc).Num? ==> lo <= Cell(x, vc).x <= hi
    requires GroupMean(rows, kc, vc, k).Some?
    ensures lo <= GroupMean(rows, kc, vc, k).value <= hi
  {
    GroupSumAtLeast(rows, kc, vc, k, lo);
    GroupSumAtMost(rows, kc, vc, k, hi);
    MeanFromBounds(GroupMean(rows, kc, vc, k).value, GroupCount(rows, kc, vc, k), GroupSum(rows, kc, vc, k), lo, hi);
  }

  lemma MeanFromBounds(m: real, n: nat, s: real, lo: real, hi: real)
    requires n > 0 && m * (n as real) == s && Times(lo, n) <= s <= Times(hi, n)
    ensures lo <= m <= hi
  {
    TimesIsProduct(lo, n);
    TimesIsProduct(hi, n);
    assert lo * (n as real) <= m * (n as real) <= hi * (n as real);
    ScaleDown(m, n as real, lo);
    ScaleDown(m, n as real, hi);
  }

  /** Two tables that agree, row by row, on the columns `kc` and `vc`. */
  predicate AgreeOn(rows1: seq<Row>, rows2: seq<Row>, kc: string, vc: string)
  {
    |rows1| == |rows2| &&
    forall i :: 0 <= i < |rows1| ==> Cell(rows1[i], kc) == Cell(rows2[i], kc) && Cell(rows1[i], vc) == Cell(rows2[i], vc)
  }

  lemma {:induction false} AgreeingGroups(rows1: seq<Row>, rows2: seq<Row>, kc: string, vc: string, k: Value)
    requires AgreeOn(rows1, rows2, kc, vc)
    ensures GroupKeys(rows1, kc) == GroupKeys(rows2, kc)
    ensures GroupSum(rows1, kc, vc, k) == GroupSum(rows2, kc, vc, k)
    ensures GroupCount(rows1, kc, vc, k) == GroupCount(rows2, kc, vc, k)
  {
    if rows1 != [] {
      AgreeingGroups(rows1[1..], rows2[1..], kc, vc, k);
    }
  }

  /** A summary reads only its own two columns: tables that agree on them give
      the same summary, whatever their other columns hold. This is why the two
      aggregates are independent of each other. */
  lemma SummariesReadOnlyTheirColumns(rows1: seq<Row>, rows2: seq<Row>, kc: string, vc: string)
    requires AgreeOn(rows1, rows2, kc, vc)
    ensures SumBy(rows1, kc, vc) == SumBy(rows2, kc, vc)
    ensures MeanBy(rows1, kc, vc) == MeanBy(rows2, kc, vc)
  {
    AgreeingGroups(rows1, rows2, kc, vc, Null);
    var ks := GroupKeys(rows1, kc);
    var s1, s2 := SumBy(rows1, kc, vc), SumBy(rows2, kc, vc);
    forall i | 0 <= i < |ks| ensures s1[i] == s2[i] {
      AgreeingGroups(rows1, rows2, kc, vc, ks[i]);
    }
    var m1, m2 := MeanBy(rows1, kc, vc), MeanBy(rows2, kc, vc);
    forall i | 0 <= i < |ks| ensures m1[i] == m2[i] {
      AgreeingGroups(rows1, rows2, kc, vc, ks[i]);
    }
  }
}

=== FILE: dates.dfy ===
/** Date normalisation (`to_datetime(..., errors='coerce')` then `dropna`) and the
    inclusive date-range mask of dashboard/dashboard.py. */
module Dates {
  import opened Wrappers
  import opened Values
  import opened Tables

  /** `a` is an order-preserving subsequence of `b`. */
  predicate IsSubseq<T(==)>(a: seq<T>, b: seq<T>)
    decreases |b|
  {
    if a == [] then true
    else if b == [] then false
    else if a[0] == b[0] then IsSubseq(a[1..], b[1..])
    else IsSubseq(a, b[1..])
  }

  /** The date parser of pandas, left abstract: `Some(t)` when a value reads as
      the instant `t`, `None` when it does not. The parser is fixed for one run. */
  type Parser = Value -> Option<int>

  /** Coercing conversion of one cell: a missing value stays missing, a timestamp
      stays as it is, anything else is parsed and becomes missing (NaT) on failure. */
  function CoerceCell(parse: Parser, v: Value): (r: Value)
    ensures r.Null? || r.Time?
    ensures r.Time? <==> v.Time? || (!v.Null? && parse(v).Some?)
    ensures v.Time? ==> r == v
    ensures r.Time? && !v.Time? ==> r.t == parse(v).value
  {
    match v
    case Null => Null
    case Time(_) => v
    case _ => if parse(v).Some? then Time(parse(v).value) else Null
  }

  /** True when the row's date cell survives coercion. */
  predicate DateParses(parse: Parser, row: Row)
  {
    CoerceCell(parse, Cell(row, ShippingLimitDate)).Time?
  }

  /** Number of rows whose date cell does not parse. */
  function UnparsedCount(parse: Parser, rows: seq<Row>): nat
  {
    if rows == [] then 0 else (if DateParses(parse, rows[0]) then 0 else 1) + UnparsedCount(parse, rows[1..])
  }

  /** Step one: the date column is replaced, row by row, by its coerced value;
      nothing else in any row changes and no row is added or removed. */
  function CoerceDates(parse: Parser, rows: seq<Row>): (r: seq<Row>)
    ensures |r| == |rows|
    ensures forall i :: 0 <= i < |r| ==> r[i].Keys == rows[i].Keys + {ShippingLimitDate}
    ensures forall i, c :: 0 <= i < |r| && c != ShippingLimitDate ==> Cell(r[i], c) == Cell(rows[i], c)
    ensures forall i :: 0 <= i < |r| ==> (Cell(r[i], ShippingLimitDate).Time? <==> DateParses(parse, rows[i]))
    ensures forall i :: 0 <= i < |r| ==> (Cell(r[i], ShippingLimitDate).Time? || Cell(r[i], ShippingLimitDate).Null?)
    ensures forall i :: (0 <= i < |r| && !Cell(rows[i], ShippingLimitDate).Time? && !Cell(rows[i], ShippingLimitDate).Null? &&
                         parse(Cell(rows[i], ShippingLimitDate)).Some?) ==>
      Cell(r[i], ShippingLimitDate) == Time(parse(Cell(rows[i], ShippingLimitDate)).value)
    ensures forall i :: 0 <= i < |r| && Cell(rows[i], ShippingLimitDate).Time? ==>
      Cell(r[i], ShippingLimitDate) == Cell(rows[i], ShippingLimitDate)
  {
    seq(|rows|, i requires 0 <= i < |rows| =>
      rows[i][ShippingLimitDate := CoerceCell(parse, Cell(rows[i], ShippingLimitDate))])
  }

  /** Number of rows whose cell in `col` is missing. */
  function MissingCount(rows: seq<Row>, col: string): nat
  {
    if rows == [] then 0 else (if Cell(rows[0], col).Null? then 1 else 0) + MissingCount(rows[1..], col)
  }

  /** Step two, `dropna(subset=[col])`: exactly the rows whose `col` cell is present,
      in their original order and with their multiplicities. */
  function DropMissing(rows: seq<Row>, col: string): (r: seq<Row>)
    ensures IsSubseq(r, rows)
    ensures forall x :: x in r ==> !Cell(x, col).Null?
    ensures forall x :: multiset(r)[x] == if Cell(x, col).Null? then 0 else multiset(rows)[x]
    ensures |r| + MissingCount(rows, col) == |rows|
  {
    if rows == [] then []
    else
      var rest := DropMissing(rows[1..], col);
      assert rows == [rows[0]] + rows[1..];
      if Cell(rows[0], col).Null? then rest else [rows[0]] + rest
  }

  lemma {:induction false} CoercedMissingCount(parse: Parser, rows: seq<Row>)
    ensures MissingCount(CoerceDates(parse, rows), ShippingLimitDate) == UnparsedCount(parse, rows)
  {
    if rows != [] {
      CoercedMissingCount(parse, rows[1..]);
      assert CoerceDates(parse, rows)[1..] == CoerceDates(parse, rows[1..]);
    }
  }

  /** Lines 36-38: coerce the date column, then drop the rows it could not read. */
  function NormalizeDates(parse: Parser, t: Table): (r: Table)
    requires ShippingLimitDate in t.columns
    ensures r.columns == t.columns
    ensures forall x :: x in r.rows ==> Cell(x, ShippingLimitDate).Time?
    ensures |r.rows| == |t.rows| - UnparsedCount(parse, t.rows)
    ensures IsSubseq(r.rows, CoerceDates(parse, t.rows))
    ensures forall x :: multiset(r.rows)[x] ==
                        (if Cell(x, ShippingLimitDate).Null? then 0 else multiset(CoerceDates(parse, t.rows))[x])
  {
    var coerced := CoerceDates(parse, t.rows);
    CoercedMissingCount(parse, t.rows);
    Table(t.columns, DropMissing(coerced, ShippingLimitDate))
  }

  /** Normalisation keeps a frame rectangular. */
  lemma NormalizedWellFormed(parse: Parser, t: Table)
    requires ShippingLimitDate in t.columns
    requires WellFormed(t)
    ensures WellFormed(NormalizeDates(parse, t))
  {
    var r := NormalizeDates(parse, t);
    forall k | 0 <= k < |r.rows| ensures r.rows[k].Keys == t.columns {
      NormalizedRowKeys(parse, t, r.rows[k]);
    }
  }

  lemma NormalizedRowKeys(parse: Parser, t: Table, x: Row)
    requires ShippingLimitDate in t.columns
    requires WellFormed(t)
    requires x in NormalizeDates(parse, t).rows
    ensures x.Keys == t.columns
  {
    NormalizedRowIsCoerced(parse, t, x);
    CoercedRowKeys(parse, t.rows, t.columns, x);
  }

  lemma NormalizedRowIsCoerced(parse: Parser, t: Table, x: Row)
    requires ShippingLimitDate in t.columns
    requires x in NormalizeDates(parse, t).rows
    ensures x in CoerceDates(parse, t.rows)
  {
    assert multiset(NormalizeDates(parse, t).rows)[x] > 0;
  }

  lemma CoercedRowKeys(parse: Parser, rows: seq<Row>, cols: set<string>, x: Row)
    requires ShippingLimitDate in cols
    requires forall i :: 0 <= i < |rows| ==> rows[i].Keys == cols
    requires x in CoerceDates(parse, rows)
    ensures x.Keys == cols
  {
    var coerced := CoerceDates(parse, rows);
    var i :| 0 <= i < |coerced| && coerced[i] == x;
  }

  /** Each surviving row is an input row whose date parsed, with only its date cell
      replaced by the parsed instant. */
  lemma NormalizedRowOrigin(parse: Parser, t: Table, x: Row)
    requires ShippingLimitDate in t.columns
    requires x in NormalizeDates(parse, t).rows
    ensures exists i :: (0 <= i < |t.rows| && DateParses(parse, t.rows[i]) &&
      x == t.rows[i][ShippingLimitDate := CoerceCell(parse, Cell(t.rows[i], ShippingLimitDate))])
  {
    var coerced := CoerceDates(parse, t.rows);
    assert multiset(NormalizeDates(parse, t).rows)[x] > 0;
    assert x in coerced;
    var i :| 0 <= i < |coerced| && coerced[i] == x;
    assert DateParses(parse, t.rows[i]);
  }

  /** The mask of lines 50-51: the row's instant lies in `[start, end]`, both ends included. */
  predicate InWindow(row: Row, start: int, end: int)
  {
    Cell(row, ShippingLimitDate).Time? && start <= Cell(row, ShippingLimitDate).t <= end
  }

  /** `merged_df[(ts >= start) & (ts <= end)]`: exactly the rows in the window, in order,
      with their multiplicities. */
  function FilterRange(rows: seq<Row>, start: int, end: int): (r: seq<Row>)
    ensures IsSubseq(r, rows)
    ensures forall x :: x in r ==> InWindow(x, start, end)
    ensures forall x :: multiset(r)[x] == if InWindow(x, start, end) then multiset(rows)[x] else 0
    ensures (forall x :: x in rows ==> InWindow(x, start, end)) ==> r == rows
  {
    if rows == [] then []
    else
      var rest := FilterRange(rows[1..], start, end);
      assert rows == [rows[0]] + rows[1..];
      if InWindow(rows[0], start, end) then [rows[0]] + rest else rest
  }

  /** A window with its start after its end keeps nothing: the code does not reject
      such a window, it just finds no rows. */
  lemma InvertedWindowIsEmpty(rows: seq<Row>, start: int, end: int)
    requires end < start
    ensures FilterRange(rows, start, end) == []
  {
  }

  /** The earliest instant of a non-empty normalised table. */
  function MinTime(rows: seq<Row>): (m: int)
    requires rows != []
    requires forall x :: x in rows ==> Cell(x, ShippingLimitDate).Time?
    ensures forall x :: x in rows ==> m <= Cell(x, ShippingLimitDate).t
    ensures exists x :: x in rows && m == Cell(x, ShippingLimitDate).t
  {
    var t := Cell(rows[0], ShippingLimitDate).t;
    if |rows| == 1 then t
    else
      var m := MinTime(rows[1..]);
      assert rows == [rows[0]] + rows[1..];
      if t <= m then t else m
  }

  /** The latest instant of a non-empty normalised table. */
  function MaxTime(rows: seq<Row>): (m: int)
    requires rows != []
    requires forall x :: x in rows ==> Cell(x, ShippingLimitDate).Time?
    ensures forall x :: x in rows ==> Cell(x, ShippingLimitDate).t <= m
    ensures exists x :: x in rows && m == Cell(x, ShippingLimitDate).t
  {
    var t := Cell(rows[0], ShippingLimitDate).t;
    if |rows| == 1 then t
    else
      var m := MaxTime(rows[1..]);
      assert rows == [rows[0]] + rows[1..];
      if t >= m then t else m
  }

  /** Filtering a normalised table with its own minimum and maximum instants as
      bounds keeps the whole table. */
  lemma FullSpanKeepsAll(rows: seq<Row>)
    requires rows != []
    requires forall x :: x in rows ==> Cell(x, ShippingLimitDate).Time?
    ensures FilterRange(rows, MinTime(rows), MaxTime(rows)) == rows
  {
  }
}

=== FILE: join.dfy ===
/** The inner join of the items and payments frames on `order_id`
    (`merge(..., on="order_id", how="inner")` in dashboard/dashboard.py). */
module Join {
  import opened Values
  import opened Tables

  /** Non-key columns present in both inputs; pandas renames them with suffixes. */
  function Shared(lc: set<string>, rc: set<string>): set<string>
  {
    (lc * rc) - {OrderId}
  }

  function Suffixed(cols: set<string>, suffix: string): set<string>
  {
    set c | c in cols :: c + suffix
  }

  /** The columns of the joined frame: the key once, every column of one side
      only under its own name, and every shared non-key column twice, as
      `<name>_x` (from the left) and `<name>_y` (from the right). */
  function JoinColumns(lc: set<string>, rc: set<string>): set<string>
  {
    (lc - Shared(lc, rc)) + (rc - lc) + Suffixed(Shared(lc, rc), "_x") + Suffixed(Shared(lc, rc), "_y")
  }

  /** The cell of joined column `c`: the key and left-only columns come from the
      left row, right-only columns from the right row, and `<name>_x` / `<name>_y`
      from the left / right cell of a shared column `<name>`. Unsuffixed names are
      looked up first, so on a clash of names (which pandas refuses) they win. */
  function MergedCell(l: Row, r: Row, lc: set<string>, rc: set<string>, c: string): Value
  {
    var sh := Shared(lc, rc);
    if c in lc - sh then Cell(l, c)
    else if c in rc - lc then Cell(r, c)
    else if |c| >= 2 && c[|c| - 2..] == "_x" && c[..|c| - 2] in sh then Cell(l, c[..|c| - 2])
    else if |c| >= 2 && c[|c| - 2..] == "_y" && c[..|c| - 2] in sh then Cell(r, c[..|c| - 2])
    else Null
  }

  /** The joined record built from a left row and a matching right row. */
  function Merge(l: Row, r: Row, lc: set<string>, rc: set<string>): (m: Row)
    ensures m.Keys == JoinColumns(lc, rc)
  {
    map c | c in JoinColumns(lc, rc) :: MergedCell(l, r, lc, rc, c)
  }

  /** Where each cell of a joined record comes from: the key and the left-only
      columns from the left row, the right-only columns from the right row, and
      the shared columns from their own side under their suffixed names. */
  lemma MergeCell(l: Row, r: Row, lc: set<string>, rc: set<string>, c: string)
    ensures c in lc - Shared(lc, rc) ==> Merge(l, r, lc, rc)[c] == Cell(l, c)
    ensures c in rc - lc ==> Merge(l, r, lc, rc)[c] == Cell(r, c)
    ensures c in Shared(lc, rc) && c + "_x" !in lc + rc ==> Merge(l, r, lc, rc)[c + "_x"] == Cell(l, c)
    ensures c in Shared(lc, rc) && c + "_y" !in lc + rc ==> Merge(l, r, lc, rc)[c + "_y"] == Cell(r, c)
  {
    var sh := Shared(lc, rc);
    if c in sh {
      var cx, cy := c + "_x", c + "_y";
      assert cx[|cx| - 2..] == "_x" && cx[..|cx| - 2] == c;
      assert cy[|cy| - 2..] == "_y" && cy[..|cy| - 2] == c;
      assert cx in Suffixed(sh, "_x") && cy in Suffixed(sh, "_y");
    }
  }

  /** Inner-join equality of keys: plain value equality, so (as in pandas, unlike SQL)
      two missing keys match each other. */
  predicate KeysMatch(l: Row, r: Row)
  {
    Cell(l, OrderId) == Cell(r, OrderId)
  }

  /** Number of rows of `rs` whose key equals that of `l`. */
  function MatchCount(l: Row, rs: seq<Row>): nat
  {
    if rs == [] then 0 else (if KeysMatch(l, rs[0]) then 1 else 0) + MatchCount(l, rs[1..])
  }

  /** Number of rows the inner join produces: the sum, over left rows, of their matches. */
  function Fanout(ls: seq<Row>, rs: seq<Row>): nat
  {
    if ls == [] then 0 else MatchCount(ls[0], rs) + Fanout(ls[1..], rs)
  }

  /** The joined rows contributed by one left row, in right-table order. */
  function MatchRows(l: Row, rs: seq<Row>, lc: set<string>, rc: set<string>): (out: seq<Row>)
    ensures |out| == MatchCount(l, rs)
  {
    if rs == [] then []
    else (if KeysMatch(l, rs[0]) then [Merge(l, rs[0], lc, rc)] else []) + MatchRows(l, rs[1..], lc, rc)
  }

  /** The joined rows, left-table order first, then right-table order among matches
      (the order pandas 2.2 and later give an inner merge; no result of the pipeline
      depends on it, since the summaries group by sorted keys). */
  function JoinRows(ls: seq<Row>, rs: seq<Row>, lc: set<string>, rc: set<string>): (out: seq<Row>)
    ensures |out| == Fanout(ls, rs)
  {
    if ls == [] then [] else MatchRows(ls[0], rs, lc, rc) + JoinRows(ls[1..], rs, lc, rc)
  }

  /** Each left row has at most |rs| matches, so the join has at most |ls| * |rs| rows. */
  lemma {:induction false} FanoutBound(ls: seq<Row>, rs: seq<Row>)
    ensures Fanout(ls, rs) <= |ls| * |rs|
  {
    if ls != [] {
      FanoutBound(ls[1..], rs);
      MatchCountBound(ls[0], rs);
      assert |rs| + (|ls| - 1) * |rs| == |ls| * |rs|;
    }
  }

  lemma {:induction false} MatchCountBound(l: Row, rs: seq<Row>)
    ensures MatchCount(l, rs) <= |rs|
  {
    if rs != [] { MatchCountBound(l, rs[1..]); }
  }

  /** `items.merge(payments, on="order_id", how="inner")`. */
  function InnerJoin(left: Table, right: Table): (t: Table)
    ensures t.columns == JoinColumns(left.columns, right.columns)
    ensures WellFormed(t)
    ensures |t.rows| == Fanout(left.rows, right.rows) <= |left.rows| * |right.rows|
    ensures forall x :: x in t.rows <==>
      (exists i, j :: 0 <= i < |left.rows| && 0 <= j < |right.rows| && KeysMatch(left.rows[i], right.rows[j]) &&
                      x == Merge(left.rows[i], right.rows[j], left.columns, right.columns))
    ensures t.rows == JoinRows(left.rows, right.rows, left.columns, right.columns)
  {
    var rows := JoinRows(left.rows, right.rows, left.columns, right.columns);
    FanoutBound(left.rows, right.rows);
    JoinRowsColumns(left.rows, right.rows, left.columns, right.columns);
    forall x {
      JoinMembership(left.rows, right.rows, left.columns, right.columns, x);
    }
    Table(JoinColumns(left.columns, right.columns), rows)
  }

  lemma {:induction false} JoinRowsColumns(ls: seq<Row>, rs: seq<Row>, lc: set<string>, rc: set<string>)
    ensures forall x :: x in JoinRows(ls, rs, lc, rc) ==> x.Keys == JoinColumns(lc, rc)
  {
    forall x | x in JoinRows(ls, rs, lc, rc) ensures x.Keys == JoinColumns(lc, rc) {
      JoinMembership(ls, rs, lc, rc, x);
    }
  }

  /** A row of the joined rows of `l` is exactly the merge of `l` with a matching right row. */
  lemma {:induction false} MatchMembership(l: Row, rs: seq<Row>, lc: set<string>, rc: set<string>, x: Row)
    ensures x in MatchRows(l, rs, lc, rc) <==>
      exists j :: 0 <= j < |rs| && KeysMatch(l, rs[j]) && x == Merge(l, rs[j], lc, rc)
  {
    if rs != [] {
      MatchMembership(l, rs[1..], lc, rc, x);
      if exists j :: 0 <= j < |rs| && KeysMatch(l, rs[j]) && x == Merge(l, rs[j], lc, rc) {
        var j :| 0 <= j < |rs| && KeysMatch(l, rs[j]) && x == Merge(l, rs[j], lc, rc);
        if j > 0 { assert rs[1..][j - 1] == rs[j]; }
      }
      if exists j :: 0 <= j < |rs| - 1 && KeysMatch(l, rs[1..][j]) && x == Merge(l, rs[1..][j], lc, rc) {
        var j :| 0 <= j < |rs| - 1 && KeysMatch(l, rs[1..][j]) && x == Merge(l, rs[1..][j], lc, rc);
        assert rs[1..][j] == rs[j + 1];
      }
    }
  }

  /** Join membership: a row is in the join iff it merges some left row with some
      right row that has the same `order_id`. */
  lemma {:induction false} JoinMembership(ls: seq<Row>, rs: seq<Row>, lc: set<string>, rc: set<string>, x: Row)
    ensures x in JoinRows(ls, rs, lc, rc) <==>
      exists i, j :: 0 <= i < |ls| && 0 <= j < |rs| && KeysMatch(ls[i], rs[j]) && x == Merge(ls[i], rs[j], lc, rc)
  {
    if ls != [] {
      JoinMembership(ls[1..], rs, lc, rc, x);
      MatchMembership(ls[0], rs, lc, rc, x);
      if exists i, j :: 0 <= i < |ls| && 0 <= j < |rs| && KeysMatch(ls[i], rs[j]) && x == Merge(ls[i], rs[j], lc, rc) {
        var i, j :| 0 <= i < |ls| && 0 <= j < |rs| && KeysMatch(ls[i], rs[j]) && x == Merge(ls[i], rs[j], lc, rc);
        if i > 0 { assert ls[1..][i - 1] == ls[i]; }
      }
      if exists i, j :: 0 <= i < |ls| - 1 && 0 <= j < |rs| && KeysMatch(ls[1..][i], rs[j]) && x == Merge(ls[1..][i], rs[j], lc, rc) {
        var i, j :| 0 <= i < |ls| - 1 && 0 <= j < |rs| && KeysMatch(ls[1..][i], rs[j]) && x == Merge(ls[1..][i], rs[j], lc, rc);
        assert ls[1..][i] == ls[i + 1];
      }
    }
  }

  /** Order, part 1: the join distributes over splitting the left table, so the
      output follows the left table's row order. */
  lemma {:induction false} JoinLeftConcat(a: seq<Row>, b: seq<Row>, rs: seq<Row>, lc: set<string>, rc: set<string>)
    ensures JoinRows(a + b, rs, lc, rc) == JoinRows(a, rs, lc, rc) + JoinRows(b, rs, lc, rc)
  {
    if a != [] {
      assert (a + b)[1..] == a[1..] + b;
      JoinLeftConcat(a[1..], b, rs, lc, rc);
    } else {
      assert a + b == b;
    }
  }

  /** Order, part 2: the matches of one left row distribute over splitting the
      right table, so they follow the right table's row order. */
  lemma {:induction false} MatchRightConcat(l: Row, a: seq<Row>, b: seq<Row>, lc: set<string>, rc: set<string>)
    ensures MatchRows(l, a + b, lc, rc) == MatchRows(l, a, lc, rc) + MatchRows(l, b, lc, rc)
  {
    if a != [] {
      assert (a + b)[1..] == a[1..] + b;
      MatchRightConcat(l, a[1..], b, lc, rc);
    } else {
      assert a + b == b;
    }
  }

  /** Order, part 3: one left row against one right row gives one merged row when
      the keys are equal and nothing otherwise. With parts 1 and 2 this fixes the
      join completely: one output row per matching pair, in (left, right) order. */
  lemma JoinSingleton(l: Row, r: Row, lc: set<string>, rc: set<string>)
    ensures JoinRows([l], [r], lc, rc) == if KeysMatch(l, r) then [Merge(l, r, lc, rc)] else []
  {
    assert [l][1..] == [] && [r][1..] == [];
  }

  /** Two left rows of the same order as one right row give two joined rows. */
  lemma JoinTwoToOne(item1: Row, item2: Row, payment: Row, lc: set<string>, rc: set<string>)
    requires KeysMatch(item1, payment) && KeysMatch(item2, payment)
    ensures JoinRows([item1, item2], [payment], lc, rc) == [Merge(item1, payment, lc, rc), Merge(item2, payment, lc, rc)]
  {
    JoinSingleton(item1, payment, lc, rc);
    JoinSingleton(item2, payment, lc, rc);
    JoinLeftConcat([item1], [item2], [payment], lc, rc);
    assert [item1] + [item2] == [item1, item2];
  }

  lemma {:induction false} UniqueKeysMatchOnce(l: Row, rs: seq<Row>)
    requires forall j, k :: 0 <= j < k < |rs| ==> Cell(rs[j], OrderId) != Cell(rs[k], OrderId)
    ensures MatchCount(l, rs) <= 1
  {
    if rs != [] {
      UniqueKeysMatchOnce(l, rs[1..]);
      if KeysMatch(l, rs[0]) {
        NoMatchWhenKeyAbsent(l, rs[1..]);
      }
    }
  }

  lemma {:induction false} NoMatchWhenKeyAbsent(l: Row, rs: seq<Row>)
    requires forall j :: 0 <= j < |rs| ==> Cell(rs[j], OrderId) != Cell(l, OrderId)
    ensures MatchCount(l, rs) == 0
  {
    if rs != [] {
      NoMatchWhenKeyAbsent(l, rs[1..]);
    }
  }

  /** When `order_id` is unique in the right table (one payment per order), the join
      has at most one row per left row. */
  lemma {:induction false} UniqueRightKeysBound(ls: seq<Row>, rs: seq<Row>)
    requires forall j, k :: 0 <= j < k < |rs| ==> Cell(rs[j], OrderId) != Cell(rs[k], OrderId)
    ensures Fanout(ls, rs) <= |ls|
  {
    if ls != [] {
      UniqueKeysMatchOnce(ls[0], rs);
      UniqueRightKeysBound(ls[1..], rs);
    }
  }

  /** Number of rows of `ls` whose key equals that of `r`. */
  function LeftMatchCount(ls: seq<Row>, r: Row): nat
  {
    if ls == [] then 0 else (if KeysMatch(ls[0], r) then 1 else 0) + LeftMatchCount(ls[1..], r)
  }

  lemma {:induction false} FanoutEmptyRight(ls: seq<Row>)
    ensures Fanout(ls, []) == 0
  {
    if ls != [] { FanoutEmptyRight(ls[1..]); }
  }

  /** Counting the join by right rows instead of left rows: the first right row
      contributes one row per left row it matches. */
  lemma {:induction false} FanoutPeelRight(ls: seq<Row>, rs: seq<Row>)
    requires rs != []
    ensures Fanout(ls, rs) == LeftMatchCount(ls, rs[0]) + Fanout(ls, rs[1..])
  {
    if ls != [] { FanoutPeelRight(ls[1..], rs); }
  }

  lemma {:induction false} UniqueLeftKeysMatchOnce(ls: seq<Row>, r: Row)
    requires forall i, k :: 0 <= i < k < |ls| ==> Cell(ls[i], OrderId) != Cell(ls[k], OrderId)
    ensures LeftMatchCount(ls, r) <= 1
  {
    if ls != [] {
      UniqueLeftKeysMatchOnce(ls[1..], r);
      if KeysMatch(ls[0], r) {
        NoLeftMatchWhenKeyAbsent(ls[1..], r);
      }
    }
  }

  lemma {:induction false} NoLeftMatchWhenKeyAbsent(ls: seq<Row>, r: Row)
    requires forall i :: 0 <= i < |ls| ==> Cell(ls[i], OrderId) != Cell(r, OrderId)
    ensures LeftMatchCount(ls, r) == 0
  {
    if ls != [] {
      NoLeftMatchWhenKeyAbsent(ls[1..], r);
    }
  }

  /** When `order_id` is unique in the left table (one item per order), the join
      has at most one row per right row. */
  lemma {:induction false} UniqueLeftKeysBound(ls: seq<Row>, rs: seq<Row>)
    requires forall i, k :: 0 <= i < k < |ls| ==> Cell(ls[i], OrderId) != Cell(ls[k], OrderId)
    ensures Fanout(ls, rs) <= |rs|
  {
    if rs == [] {
      FanoutEmptyRight(ls);
    } else {
      FanoutPeelRight(ls, rs);
      UniqueLeftKeysMatchOnce(ls, rs[0]);
      UniqueLeftKeysBound(ls, rs[1..]);
    }
  }

  /** With `order_id` unique in both tables the join is at most as long as the
      shorter of them. */
  lemma UniqueKeysBound(ls: seq<Row>, rs: seq<Row>)
    requires forall i, k :: 0 <= i < k < |ls| ==> Cell(ls[i], OrderId) != Cell(ls[k], OrderId)
    requires forall j, k :: 0 <= j < k < |rs| ==> Cell(rs[j], OrderId) != Cell(rs[k], OrderId)
    ensures Fanout(ls, rs) <= |ls| && Fanout(ls, rs) <= |rs|
  {
    UniqueRightKeysBound(ls, rs);
    UniqueLeftKeysBound(ls, rs);
  }
}

=== FILE: pipeline.dfy ===
/** The straight-line script of dashboard/dashboard.py, lines 16-74: load both
    files, check the join key, join, normalise dates, filter by the chosen window,
    stop on an empty result, and compute the two gated summaries. Every
    `st.error` + `st.stop()` and the `st.warning` + `st.stop()` is a variant of
    `Status`; the date window is an input. */
module Pipeline {
  import opened Wrappers
  import opened Values
  import opened Tables
  import opened Loader
  import opened Join
  import opened Dates
  import opened Aggregate

  type PaymentTable = seq<(Value, real)>
  type InstallmentTable = seq<(Value, Option<real>)>

  /** How a run ends. `EmptyRange` is the warning-level stop of lines 54-56; the
      other three stops are errors. A summary is `None` when its columns are absent. */
  datatype Status =
    | MissingFile(title: string)
    | MissingKey
    | MissingDateColumn
    | EmptyRange
    | Ok(payments: Option<PaymentTable>, installments: Option<InstallmentTable>)

  predicate IsError(s: Status)
  {
    s.MissingFile? || s.MissingKey? || s.MissingDateColumn?
  }

  /** Lines 28-30: both frames must have the join key. */
  predicate HasKey(items: Table, payments: Table)
  {
    OrderId in items.columns && OrderId in payments.columns
  }

  /** Lines 16-41: the joined and date-normalised frame, or the status of the
      first stop on the way. */
  function Prepared(files: Files, parse: Parser): (r: Result<Table, Status>)
    ensures r.Failure? ==> IsError(r.error)
    ensures r.Success? ==> WellFormed(r.value) && ShippingLimitDate in r.value.columns
    ensures r.Success? ==> forall x :: x in r.value.rows ==> Cell(x, ShippingLimitDate).Time?
    ensures r.Success? ==>
      (ItemsFile in files && PaymentsFile in files &&
       ShippingLimitDate in JoinColumns(files[ItemsFile].columns, files[PaymentsFile].columns) &&
       r.value == NormalizeDates(parse, InnerJoin(files[ItemsFile], files[PaymentsFile])))
  {
    match LoadCsv(files, ItemsFile, ItemsLabel)
    case Failure(title) => Failure(MissingFile(title))
    case Success(items) =>
      match LoadCsv(files, PaymentsFile, PaymentsLabel)
      case Failure(title) => Failure(MissingFile(title))
      case Success(payments) =>
        if !HasKey(items, payments) then Failure(MissingKey)
        else
          var merged := InnerJoin(items, payments);
          if ShippingLimitDate !in merged.columns then Failure(MissingDateColumn)
          else
            NormalizedWellFormed(parse, merged);
            Success(NormalizeDates(parse, merged))
  }

  /** Lines 58-74: each summary is computed exactly when both of its columns exist. */
  function Summaries(columns: set<string>, rows: seq<Row>): (r: (Option<PaymentTable>, Option<InstallmentTable>))
    ensures r.0.Some? <==> PaymentType in columns && PaymentValue in columns
    ensures r.1.Some? <==> PaymentInstallments in columns && Price in columns
    ensures r.0.Some? ==> r.0.value == PaymentSummary(rows)
    ensures r.1.Some? ==> r.1.value == InstallmentSummary(rows)
  {
    (if PaymentType in columns && PaymentValue in columns then Some(PaymentSummary(rows)) else None,
     if PaymentInstallments in columns && Price in columns then Some(InstallmentSummary(rows)) else None)
  }

  /** One run of the dashboard script on the project directory `files`, the date
      parser `parse` and the window `[start, end]` of instants (midnight of the two
      dates picked in the sidebar). */
  function Run(files: Files, parse: Parser, start: int, end: int): (s: Status)
    ensures s.Ok? ==> Prepared(files, parse).Success?
    ensures s == EmptyRange <==>
      Prepared(files, parse).Success? && FilterRange(Prepared(files, parse).value.rows, start, end) == []
    ensures s.Ok? ==> FilterRange(Prepared(files, parse).value.rows, start, end) != []
    ensures s.Ok? ==>
      ((s.payments, s.installments) ==
       Summaries(Prepared(files, parse).value.columns, FilterRange(Prepared(files, parse).value.rows, start, end)))
  {
    match Prepared(files, parse)
    case Failure(stop) => stop
    case Success(t) =>
      var filtered := FilterRange(t.rows, start, end);
      if filtered == [] then EmptyRange
      else
        var (pay, inst) := Summaries(t.columns, filtered);
        Ok(pay, inst)
  }

  /** The stops come in the order of the script: the items file, the payments file,
      the join key, the date column; each is produced exactly under its condition. */
  lemma HaltingOrder(files: Files, parse: Parser, start: int, end: int)
    ensures ItemsFile !in files ==> Run(files, parse, start, end) == MissingFile(ItemsLabel)
    ensures ItemsFile in files && PaymentsFile !in files ==>
      Run(files, parse, start, end) == MissingFile(PaymentsLabel)
    ensures Run(files, parse, start, end).MissingFile? <==> ItemsFile !in files || PaymentsFile !in files
    ensures Run(files, parse, start, end) == MissingKey <==>
      ItemsFile in files && PaymentsFile in files && !HasKey(files[ItemsFile], files[PaymentsFile])
    ensures Run(files, parse, start, end) == MissingDateColumn <==>
      ItemsFile in files && PaymentsFile in files && HasKey(files[ItemsFile], files[PaymentsFile]) &&
      ShippingLimitDate !in JoinColumns(files[ItemsFile].columns, files[PaymentsFile].columns)
  {
  }

  /** The key check runs before any join: when a frame lacks `order_id`, the outcome
      depends on nothing but the column names, whatever rows, parser or window. */
  lemma KeyCheckPrecedesJoin(files1: Files, files2: Files, parse1: Parser, parse2: Parser,
                             start1: int, end1: int, start2: int, end2: int)
    requires ItemsFile in files1 && PaymentsFile in files1
    requires ItemsFile in files2 && PaymentsFile in files2
    requires files1[ItemsFile].columns == files2[ItemsFile].columns
    requires files1[PaymentsFile].columns == files2[PaymentsFile].columns
    requires !HasKey(files1[ItemsFile], files1[PaymentsFile])
    ensures Run(files1, parse1, start1, end1) == Run(files2, parse2, start2, end2) == MissingKey
  {
  }

  /** An empty filtered frame is a warning, never an error and never a summary; a
      successful run always summarises at least one row. */
  lemma EmptyRangeIsWarningOnly(files: Files, parse: Parser, start: int, end: int)
    ensures IsError(Run(files, parse, start, end)) <==> Prepared(files, parse).Failure?
    ensures Run(files, parse, start, end).Ok? <==>
      Prepared(files, parse).Success? && FilterRange(Prepared(files, parse).value.rows, start, end) != []
  {
  }

  /** The code does not validate the window: a start after the end is not an error,
      it yields the empty-range warning once the data is ready. */
  lemma InvertedWindowWarns(files: Files, parse: Parser, start: int, end: int)
    requires Prepared(files, parse).Success?
    requires end < start
    ensures Run(files, parse, start, end) == EmptyRange
  {
    InvertedWindowIsEmpty(Prepared(files, parse).value.rows, start, end);
  }

  /** A window from the data's earliest to its latest instant summarises every
      normalised row. */
  lemma FullSpanSummarisesAll(files: Files, parse: Parser)
    requires Prepared(files, parse).Success?
    requires Prepared(files, parse).value.rows != []
    ensures var t := Prepared(files, parse).value;
      Run(files, parse, MinTime(t.rows), MaxTime(t.rows)) == Ok(Summaries(t.columns, t.rows).0, Summaries(t.columns, t.rows).1)
  {
    FullSpanKeepsAll(Prepared(files, parse).value.rows);
  }

  /** The two summaries are independent: each depends only on its own two columns,
      so changing or removing the other pair leaves it unchanged. */
  lemma SummariesIndependent(c1: set<string>, rows1: seq<Row>, c2: set<string>, rows2: seq<Row>)
    ensures ((PaymentType in c1 && PaymentValue in c1) == (PaymentType in c2 && PaymentValue in c2) &&
             AgreeOn(rows1, rows2, PaymentType, PaymentValue))
      ==> Summaries(c1, rows1).0 == Summaries(c2, rows2).0
    ensures ((PaymentInstallments in c1 && Price in c1) == (PaymentInstallments in c2 && Price in c2) &&
             AgreeOn(rows1, rows2, PaymentInstallments, Price))
      ==> Summaries(c1, rows1).1 == Summaries(c2, rows2).1
  {
    if AgreeOn(rows1, rows2, PaymentType, PaymentValue) {
      SummariesReadOnlyTheirColumns(rows1, rows2, PaymentType, PaymentValue);
    }
    if AgreeOn(rows1, rows2, PaymentInstallments, Price) {
      SummariesReadOnlyTheirColumns(rows1, rows2, PaymentInstallments, Price);
    }
  }

  lemma TwoRowsOneGroup(m1: Row, m2: Row, k: Value, v: real)
    requires !k.Null?
    requires Cell(m1, PaymentType) == k && Cell(m2, PaymentType) == k
    requires Cell(m1, PaymentValue) == Num(v) && Cell(m2, PaymentValue) == Num(v)
    ensures PaymentSummary([m1, m2]) == [(k, v + v)]
  {
    assert [m1, m2][1..] == [m2];
    assert [m2][1..] == [];
    assert GroupKeys([m2], PaymentType) == [k];
    assert GroupKeys([m1, m2], PaymentType) == [k];
    assert GroupSum([m2], PaymentType, PaymentValue, k) == v;
    assert GroupSum([m1, m2], PaymentType, PaymentValue, k) == v + v;
  }

  /** Join fan-out is not de-duplicated: one payment joined to two items of the same
      order is summed twice, once per joined row. */
  lemma FanoutCountsPaymentPerItem(item1: Row, item2: Row, payment: Row, lc: set<string>, rc: set<string>, v: real)
    requires PaymentType in rc - lc && PaymentValue in rc - lc
    requires KeysMatch(item1, payment) && KeysMatch(item2, payment)
    requires Cell(payment, PaymentType).Str? && Cell(payment, PaymentValue) == Num(v)
    ensures PaymentSummary(JoinRows([item1, item2], [payment], lc, rc)) == [(Cell(payment, PaymentType), v + v)]
  {
    JoinTwoToOne(item1, item2, payment, lc, rc);
    MergeCell(item1, payment, lc, rc, PaymentType);
    MergeCell(item1, payment, lc, rc, PaymentValue);
    MergeCell(item2, payment, lc, rc, PaymentType);
    MergeCell(item2, payment, lc, rc, PaymentValue);
    var m1, m2 := Merge(item1, payment, lc, rc), Merge(item2, payment, lc, rc);
    assert PaymentType in m1 && PaymentValue in m1 && PaymentType in m2 && PaymentValue in m2;
    TwoRowsOneGroup(m1, m2, Cell(payment, PaymentType), v);
  }

  /** The payment summary a run shows adds up to the total `payment_value` of the
      filtered rows that have a payment type. */
  lemma RunPaymentTotal(files: Files, parse: Parser, start: int, end: int)
    requires Run(files, parse, start, end).Ok? && Run(files, parse, start, end).payments.Some?
    ensures TotalOf(Run(files, parse, start, end).payments.value) ==
      KeyedTotal(FilterRange(Prepared(files, parse).value.rows, start, end), PaymentType, PaymentValue)
  {
  }
}

=== FILE: tables.dfy ===
/** The small Option/Result wrappers the pipeline uses for partial operations. */
module Wrappers {
  datatype Option<T> = None | Some(value: T)
  datatype Result<T, E> = Success(value: T) | Failure(error: E)
}

/** Data frames as a column-name set and an ordered sequence of rows, and the
    column names the dashboard relies on. */
module Tables {
  import opened Values

  /** One record: column name to cell. */
  type Row = map<string, Value>

  datatype Table = Table(columns: set<string>, rows: seq<Row>)

  /** A data frame is rectangular: every row has exactly the frame's columns. */
  predicate WellFormed(t: Table)
  {
    forall i :: 0 <= i < |t.rows| ==> t.rows[i].Keys == t.columns
  }

  /** The cell of `row` under `col`; a column the row lacks reads as missing. */
  function Cell(row: Row, col: string): Value
  {
    if col in row then row[col] else Null
  }

  const OrderId := "order_id"
  const ShippingLimitDate := "shipping_limit_date"
  const PaymentType := "payment_type"
  const PaymentValue := "payment_value"
  const PaymentInstallments := "payment_installments"
  const Price := "price"
}

/** The loader of dashboard/dashboard.py: a file is read only if it exists. */
module Loader {
  import opened Wrappers
  import opened Tables

  /** The project directory as a map from file name to the frame `read_csv`
      would produce for it (CSV parsing itself is not modelled). */
  type Files = map<string, Table>

  const ItemsFile := "order_items_dataset.csv"
  const PaymentsFile := "order_payments_dataset.csv"
  const ItemsLabel := "Order Items Dataset"
  const PaymentsLabel := "Order Payments Dataset"

  /** Returns the frame stored under `path`, or fails with the human-readable
      `title` of the missing file, which the caller reports before halting. */
  function LoadCsv(files: Files, path: string, title: string): (r: Result<Table, string>)
    ensures r.Success? <==> path in files
    ensures r.Success? ==> r.value == files[path]
    ensures r.Failure? ==> r.error == title
  {
    if path in files then Success(files[path]) else Failure(title)
  }
}

=== FILE: values.dfy ===
/** Cell values of a table and the order pandas uses to sort group keys. */
module Values {

  /** A scalar in a data frame cell. `Null` is pandas' missing marker (NaN/NaT/None);
      numbers are kept as exact reals; `Time` is a parsed timestamp (an instant). */
  datatype Value = Null | Num(x: real) | Str(s: string) | Time(t: int)

  /** Strict lexicographic order on strings, by code point, as Python compares `str`. */
  predicate StrLess(a: string, b: string)
    decreases |a|
  {
    if |a| == 0 then |b| > 0
    else if |b| == 0 then false
    else a[0] < b[0] || (a[0] == b[0] && StrLess(a[1..], b[1..]))
  }

  /** Kinds are ordered Null < Num < Str < Time; only values of one kind are ever
      compared by a group-by, so the cross-kind order just makes the order total. */
  function Rank(v: Value): nat
  {
    match v
    case Null => 0
    case Num(_) => 1
    case Str(_) => 2
    case Time(_) => 3
  }

  /** The strict order in which sorted group keys are listed. */
  predicate Less(a: Value, b: Value)
  {
    if Rank(a) != Rank(b) then Rank(a) < Rank(b)
    else match (a, b)
      case (Num(x), Num(y)) => x < y
      case (Str(s), Str(t)) => StrLess(s, t)
      case (Time(s), Time(t)) => s < t
      case _ => false
  }

  lemma {:induction false} StrLessIrreflexive(a: string)
    ensures !StrLess(a, a)
    decreases |a|
  {
    if |a| > 0 { StrLessIrreflexive(a[1..]); }
  }

  lemma {:induction false} StrLessTransitive(a: string, b: string, c: string)
    requires StrLess(a, b) && StrLess(b, c)
    ensures StrLess(a, c)
    decreases |a|
  {
    if |a| > 0 && a[0] == b[0] && b[0] == c[0] {
      StrLessTransitive(a[1..], b[1..], c[1..]);
    }
  }

  lemma {:induction false} StrLessTotal(a: string, b: string)
    requires a != b
    ensures StrLess(a, b) || StrLess(b, a)
    decreases |a|
  {
    if |a| > 0 && |b| > 0 && a[0] == b[0] {
      assert a == [a[0]] + a[1..] && b == [b[0]] + b[1..];
      StrLessTotal(a[1..], b[1..]);
    }
  }

  /** `Less` is a strict total order: irreflexive, transitive and connected. */
  lemma LessIsStrictTotalOrder(a: Value, b: Value, c: Value)
    ensures !Less(a, a)
    ensures Less(a, b) && Less(b, c) ==> Less(a, c)
    ensures a != b ==> Less(a, b) || Less(b, a)
  {
    if a.Str? { StrLessIrreflexive(a.s); }
    if Less(a, b) && Less(b, c) && a.Str? && b.Str? && c.Str? {
      StrLessTransitive(a.s, b.s, c.s);
    }
    if a != b && a.Str? && b.Str? { StrLessTotal(a.s, b.s); }
  }
}

=== FILE: window.dfy ===
/** The default date window of the sidebar (dashboard/dashboard.py lines 45-51).
    The widget is given the earliest and latest instants, but it deals in calendar
    dates: what comes back is two dates, and `pd.Timestamp(date)` turns each into
    the midnight that starts it. Instants here are seconds since the epoch. */
module Window {
  import opened Values
  import opened Tables
  import opened Dates

  const DayLength := 86400

  /** The midnight that starts the day of instant `t` (`pd.Timestamp(t.date())`). */
  function Midnight(t: int): (m: int)
    ensures m <= t < m + DayLength
    ensures m % DayLength == 0
  {
    t - t % DayLength
  }

  /** As written: the default window compares against the midnights of the first
      and the last day, so the last day is cut at its very first instant. */
  function DefaultWindow(rows: seq<Row>): (w: (int, int))
    requires rows != []
    requires forall x :: x in rows ==> Cell(x, ShippingLimitDate).Time?
    ensures w.0 <= MinTime(rows) && w.1 <= MaxTime(rows)
    ensures w.0 % DayLength == 0 && MinTime(rows) < w.0 + DayLength
    ensures w.1 % DayLength == 0 && MaxTime(rows) < w.1 + DayLength
  {
    (Midnight(MinTime(rows)), Midnight(MaxTime(rows)))
  }

  /** As written, every row later than midnight of the last day falls outside the
      default window. */
  lemma DefaultWindowDropsLastDay(rows: seq<Row>, x: Row)
    requires rows != []
    requires forall y :: y in rows ==> Cell(y, ShippingLimitDate).Time?
    requires x in rows && Cell(x, ShippingLimitDate).t > Midnight(MaxTime(rows))
    ensures x !in FilterRange(rows, DefaultWindow(rows).0, DefaultWindow(rows).1)
  {
  }

  /** A concrete case: one order line due at 09:45:35 on 2 January 1970. The default
      window is [midnight, midnight] of that day, it keeps nothing, and the script
      stops with the empty-range warning although the data is not empty. */
  lemma DefaultWindowCanBeEmpty()
    ensures var rows := [map[ShippingLimitDate := Time(DayLength + 35135)]];
      FilterRange(rows, DefaultWindow(rows).0, DefaultWindow(rows).1) == []
  {
    var rows := [map[ShippingLimitDate := Time(DayLength + 35135)]];
    assert Cell(rows[0], ShippingLimitDate) == Time(DayLength + 35135);
    assert MaxTime(rows) == DayLength + 35135;
    assert DefaultWindow(rows).1 == DayLength;
    assert FilterRange(rows[1..], DefaultWindow(rows).0, DefaultWindow(rows).1) == [];
  }

  /** Corrected: a window of calendar days, from the first instant of `startDay`'s
      day through the last instant of `endDay`'s day. */
  function DayWindow(startDay: int, endDay: int): (w: (int, int))
    ensures w.0 <= startDay && endDay <= w.1
    ensures w.0 % DayLength == 0 && (w.1 + 1) % DayLength == 0
    ensures startDay < w.0 + DayLength && w.1 < endDay + DayLength
  {
    (Midnight(startDay), Midnight(endDay) + DayLength - 1)
  }

  lemma MidnightMonotone(a: int, b: int)
    requires a <= b
    ensures Midnight(a) <= Midnight(b)
  {
    var qa, qb := a / DayLength, b / DayLength;
    assert Midnight(a) == DayLength * qa && Midnight(b) == DayLength * qb;
  }

  /** An instant lies in the corrected window exactly when its calendar day lies
      between the two chosen days, both included. */
  lemma DayWindowIsByDay(startDay: int, endDay: int, t: int)
    ensures DayWindow(startDay, endDay).0 <= t <= DayWindow(startDay, endDay).1 <==>
      Midnight(startDay) <= Midnight(t) <= Midnight(endDay)
  {
    var s, e := Midnight(startDay), Midnight(endDay);
    if s <= t { MidnightMonotone(s, t); assert Midnight(s) == s; }
  }

  /** With the corrected window, the default selection (first day to last day)
      keeps every normalised row. */
  lemma DefaultDayWindowKeepsAll(rows: seq<Row>)
    requires rows != []
    requires forall x :: x in rows ==> Cell(x, ShippingLimitDate).Time?
    ensures var w := DayWindow(MinTime(rows), MaxTime(rows));
      FilterRange(rows, w.0, w.1) == rows
  {
    var w := DayWindow(MinTime(rows), MaxTime(rows));
    assert forall x :: x in rows ==> InWindow(x, w.0, w.1);
  }
}
